=== FILE: README.md ===
# EpCleansing core, modelled in Dafny

EpCleansing is a command-line script. It deletes the watched episodes of a
media-centre library, except those of TV shows on a user-kept *whitelist*.
Around the database and file-system glue sits a small core of pure logic. This
project models that core and proves its properties:

- `dict_factory`. It turns a cursor's column names and fetched tuples into one
  dict per row. See `rows.dfy`, module `Rows`.
- `pretty_table`. It renders uniform result rows as a fixed-width ASCII table:
  a header line, an `=` rule, then one line per row. See `table.dfy`, module
  `Table`.
- The SQL text of `query_tvshows` and `query_to_del`. The model covers when
  `WHERE`, `IN (...)`, `AND` and `NOT IN (...)` appear, and what the id lists
  hold. See `queries.dfy`, module `Queries`. Decoders that parse a statement
  back into its id lists are the partners of the renderers.
- One pass of `input_validation`. It returns `Quit`, `Invalid` or
  `Valid(tokens)`.
- The whitelist updates: `whitelist += choice` in `add_whitelist`, and
  `whitelist.remove(x)` for each chosen token in `remove_whitelist`. These are
  in `whitelist.dfy`, module `Whitelist`.
- The Python builtins that the core relies on: `str.strip`, `str.split`,
  `str.join`, `int()`, `str()` of an int, and `index` on a string or list. These are in
  `text.dfy`, module `Text`, which also holds the `Option` type in module
  `Wrappers`.

The whitelist holds the tokens the user typed. Adding shows 1 and 2 saves
`["1", "2"]`: strings, not ints, because `input_validation` returns the
stripped tokens (line 183), not the parsed ints (`Whitelist.AddExample`).

`remove_whitelist` has two ways to raise. The model gives both as error
results rather than excluding them by precondition:

- `list.remove` raises `ValueError` when a chosen token is no longer in the
  list. This happens when a token is repeated, or when `int()` accepts a
  spelling such as `01` that differs from the stored `1`.
- With an empty whitelist, `display_whitelist` returns `None`. The id lookup of
  the validation then raises `TypeError` when the first token is one `int()`
  accepts; a first token it rejects re-prompts before any lookup.

## Model

| member | source | states |
|---|---|---|
| Text.Strip | EpCleansing.py:168 | `x.strip()` neither starts nor ends with whitespace. |
| Text.StripSlice | EpCleansing.py:168 | `x.strip()` is a contiguous slice of `x`. Only whitespace lies outside it, and it starts and ends with non-whitespace. |
| Text.StripIdempotent | EpCleansing.py:168 | Stripping a stripped token changes nothing. |
| Text.Split | EpCleansing.py:168 | `choice.split(',')` gives at least one piece, and no piece holds a comma. |
| Text.Join | EpCleansing.py:129 | `','.join(ids)` starts with the first id. |
| Text.JoinCount | EpCleansing.py:153 | `','.join` of comma-free ids holds exactly one comma fewer than there are ids, and none for no ids. |
| Text.SplitCount | EpCleansing.py:168 | `choice.split(',')` has one more piece than `choice` has commas. |
| Text.JoinSplit | EpCleansing.py:168 | Joining the pieces of a split with the separator gives back the original text. |
| Text.SplitJoin | EpCleansing.py:168 | Splitting a join of one or more separator-free pieces gives back the pieces. |
| Text.ParseShowInt | EpCleansing.py:171 | `int(str(n)) == n` for every integer `n`. |
| Text.ParseInt | EpCleansing.py:171-172 | `int(x)` succeeds exactly on an optional sign followed by decimal digits, and otherwise raises `ValueError` (`None`). The value is the decimal value of the digits, negated after a `-`; so `int("01") == 1`. |
| Text.IntLiteralPlain | EpCleansing.py:171 | A text `int()` accepts is non-empty and holds no comma, no `)` and no whitespace. |
| Rows.Put | EpCleansing.py:27 | `d[k] = v` keeps the keys distinct. An existing key keeps its place and a new key goes last. |
| Rows.PutGet | EpCleansing.py:27 | After `d[k] = v`, `d[k]` is `v`. |
| Rows.PutOther | EpCleansing.py:27 | `d[k] = v` leaves every other key's value unchanged. |
| Rows.DictFactory | EpCleansing.py:18-29 | `None` maps to `None`. Otherwise the result has one dict per row, and no dict repeats a key. |
| Rows.MakeRow | EpCleansing.py:25-27 | The dict built by the inner loop never repeats a key, however the column names repeat. |
| Rows.MakeRowGet | EpCleansing.py:25-27 | A key maps to the value of the last column with that name. |
| Rows.MakeRowAbsent | EpCleansing.py:25-27 | A name that is not a column is not a key of the dict, and looking it up finds nothing. |
| Rows.MakeRowKeys | EpCleansing.py:25-27 | With distinct column names, the keys are the column names, in order. |
| Rows.MakeRowKeysShared | EpCleansing.py:24-28 | The keys of a row's dict depend only on the column names, not on the values. |
| Rows.DictFactoryLookup | EpCleansing.py:21-29 | With distinct column names, dict `i` has exactly the column names as keys, in order, and maps name `j` to `rows[i][j]`. |
| Rows.DictFactoryUniform | EpCleansing.py:24-28 | All dicts of a result have the same keys in the same order. |
| Table.Widen | EpCleansing.py:43-44 | One row of the sizing loop. No width shrinks, each width covers that row's value, and each width is either unchanged or that value's length. |
| Table.FoldSizes | EpCleansing.py:42-44 | After all rows, each width covers every value in its column. Each width is either its start value or the length of some value. |
| Table.ColumnSizes | EpCleansing.py:37-44 | Column `j` is as wide as the longest of its header and its values: it is at least each of them and equal to one of them. |
| Table.Cell | EpCleansing.py:51-52 | A padded cell is three characters wider than its column. |
| Table.CellLine | EpCleansing.py:50-53 | A header or data line is `sum(sizes) + 3*len(sizes) + 1` long. |
| Table.SeparatorLine | EpCleansing.py:56-60 | The separator line has that same width. |
| Table.RowsText | EpCleansing.py:63-67 | The data part is `len(rows) * (width + 1)` long: one line of the table width plus a newline per row. `Table.RowsTextLines` gives its line structure. |
| Table.PrettyTable | EpCleansing.py:32-69 | An empty input gives exactly `"No data"`. Otherwise the table is `(len(data) + 2) * (width + 1)` long, where `width = sum + 3n + 1`. `Table.PrettyTableLines` gives its line structure. |
| Table.TableLines | EpCleansing.py:46-67 | A table has `len(data) + 2` lines, and every one has the width computed at line 46. |
| Table.PrettyTableLines | EpCleansing.py:48-67 | The table is its header, separator and row lines, each followed by a newline. |
| Table.RowsTextLines | EpCleansing.py:63-67 | The data part is the row lines, each followed by a newline. |
| Table.SeparatorShape | EpCleansing.py:57-60 | The separator holds only `\|` and `=`. It has `width + 2` `=` per column and `n + 1` bars. |
| Table.TableLinesNoNewline | EpCleansing.py:50-67 | With newline-free keys and values, no line holds a newline. |
| Table.PrettyTableSplit | EpCleansing.py:50-67 | With newline-free keys and values, splitting the table on newlines gives back its lines, and the table holds exactly `len(data) + 2` newlines. |
| Table.TableLineAt | EpCleansing.py:46-67 | Line `k` of the table starts at `k * (width + 1)`. |
| Table.CellAt | EpCleansing.py:50-53 | Cell `j` of a line starts where the widths before it put it, and holds its text padded to the column width. |
| Table.CellLineBorders | EpCleansing.py:50-53 | Header and data lines have a `\|` at the start of every cell and at the end. |
| Table.SeparatorBorders | EpCleansing.py:57-60 | The separator has its `\|` at the same places, so the columns line up. |
| Table.HeaderCell | EpCleansing.py:50-53 | Cell `j` of the table's first line is key `j` of the first row, padded to the column width. |
| Table.RowCell | EpCleansing.py:63-67 | Cell `j` of the line of row `i` is that row's `j`-th value, padded to the column width. |
| Queries.InList | EpCleansing.py:129 | An id list is bracketed by `(` and `)`. |
| Queries.ShowsFilter | EpCleansing.py:125-135 | The filter text is empty exactly when both lists are empty. Otherwise it starts with `WHERE`. |
| Queries.ShowsQuery | EpCleansing.py:119-135 | The statement always starts with the fixed `SELECT`. It is nothing more exactly when both lists are empty. |
| Queries.InClausePresent | EpCleansing.py:125-129 | `WHERE` is followed by an `IN` clause exactly when the list of shows to keep is non-empty. |
| Queries.AndClausePresent | EpCleansing.py:128-135 | The `IN` list is followed by `AND ... NOT IN` exactly when both lists are non-empty. |
| Queries.IdsJoin | EpCleansing.py:129 | For ids that are non-empty and hold no `,` or `)`, `','.join` of the ids, read back, gives the ids. |
| Queries.DecodeShowsFilterRoundTrip | EpCleansing.py:125-135 | For ids that are non-empty and hold no `,` or `)`, a filter text parses back to exactly the two lists it was built from. |
| Queries.ShowsQueryRoundTrip | EpCleansing.py:119-135 | For ids that are non-empty and hold no `,` or `)`, a whole `query_tvshows` statement parses back to its two lists, so different filters give different statements. |
| Queries.ToDelQuery | EpCleansing.py:143-154 | The `NOT IN (` list is always present. For an empty whitelist it is `()`. |
| Queries.ToDelRoundTrip | EpCleansing.py:143-154 | For ids that are non-empty and hold no `,` or `)`, a `query_to_del` statement parses back to the whitelist it excludes. |
| Whitelist.Tokens | EpCleansing.py:168 | A choice gives one token per comma, plus one. |
| Whitelist.TokensShape | EpCleansing.py:168 | Every token is stripped and holds no comma. |
| Whitelist.TokensJoin | EpCleansing.py:168 | For one or more stripped, comma-free tokens, comma-joining them and tokenising again gives the same tokens. |
| Whitelist.AllAccepted | EpCleansing.py:170-178 | The loop succeeds exactly when every token parses as an int that is a listed id. |
| Whitelist.ValidationPass | EpCleansing.py:168-183 | Quit exactly when the first token is `q`. Valid exactly when it is not `q` and every token parses as a listed id. A Valid result carries the stripped string tokens unchanged. |
| Whitelist.ValidTokensAreIds | EpCleansing.py:170-183 | Validated tokens are non-empty and hold no `,` or `)`, so they splice safely into an `IN` list. |
| Whitelist.ShowIntToken | EpCleansing.py:168-176 | `str(id)` of a listed id is a stripped, comma-free token that passes, and it is not `q`. |
| Whitelist.TypedIdsValid | EpCleansing.py:168-183 | Typing one or more listed ids comma-separated validates to exactly those ids' strings. |
| Whitelist.RemoveFirst | EpCleansing.py:254 | `list.remove(x)` deletes the first occurrence of `x`. The list shrinks by one and the rest keeps its order. |
| Whitelist.RemoveAll | EpCleansing.py:254 | The removals succeed exactly when the chosen tokens, with multiplicity, are all in the list. Then the result is the list minus them, with its length dropping by `len(choice)`, and the remaining entries keep their order. |
| Whitelist.AddOnce | EpCleansing.py:213-216 | `add_whitelist` stops on `q` and re-prompts on invalid input. It never raises. Otherwise it saves `old + choice`. |
| Whitelist.RemoveOnce | EpCleansing.py:245-254 | `remove_whitelist` stops on `q`. An empty whitelist raises `TypeError` exactly when the first token parses. `ValueError` is raised exactly when a valid choice is not contained, with multiplicity, in a non-empty list. The new list is saved exactly when a valid choice is contained in a non-empty list, and it is the result of removing each token in turn. |
| Whitelist.RemoveAfterAdd | EpCleansing.py:216 | Removing what was just added always succeeds, and it restores the list's contents. |
| Whitelist.RemoveAfterAddExact | EpCleansing.py:254 | When the added ids were not already listed, removing them restores the exact list. |
| Whitelist.AddKeepsIds | EpCleansing.py:216 | Adding keeps every entry usable in `query_to_del`'s `NOT IN` list. |
| Whitelist.RemoveKeepsIds | EpCleansing.py:254 | Removing keeps every entry usable in `query_to_del`'s `NOT IN` list. |
| Whitelist.AddExample | EpCleansing.py:213-216 | Adding `"1,2"` to an empty whitelist saves `["1", "2"]` (strings). |
| Whitelist.RemoveExample | EpCleansing.py:251-254 | Removing `"1"` from `["1", "2"]` saves `["2"]`. |
| Whitelist.LeadingZeroRaises | EpCleansing.py:251-254 | `"01"` passes validation as show 1, yet `remove("01")` on `["1"]` raises `ValueError`. |
| Whitelist.RepeatedTokenRaises | EpCleansing.py:251-254 | `"1,1"` passes validation, yet the second `remove("1")` on `["1"]` raises `ValueError`. |

## Left out

- The database layer is not modelled: `connect`, `query`, and sqlite3 execute and fetch. The shows listed to the user are a parameter (`shows`) of the whitelist operations.
- JSON and file I/O are not modelled: loading and saving the whitelist and the configuration, and deleting files in the clean loop. The whitelist is an in-memory sequence.
- The `input()` re-prompt loop is not modelled. `Invalid` and `Reprompted` stand for "ask again".
- `quit()` is not modelled. `Quit` and `Stopped` stand for it.
- The argument parser, dispatcher, logger set-up, platform detection and path expansion are left out: they are plumbing.
- `print` of the table is left out. `pretty_table`'s result is the modelled value.
- Text.ParseInt: accepts only an optional `+` or `-` followed by ASCII digits. Python's `int()` also takes underscores between digits, non-ASCII digits and surrounding whitespace. The tokens reach it already stripped, so the whitespace makes no difference here; the other spellings are not modelled.
- Table.PrettyTable: requires every row to have the keys of the first row, in the same order. The source assumes this: sqlite rows built by `dict_factory` satisfy it, and a row with another key would raise `KeyError` at line 44.
- Table.PrettyTable: values are already rendered text, standing for `str(v)` of the database value.
- Rows.DictFactory: requires each row to have at least as many fields as there are column names. sqlite rows always match `cursor.description`, so the `IndexError` a shorter tuple would raise is not modelled.
- Queries.ShowsFilter: an absent (`None`) filter is modelled as the empty list. Python treats both as false, so the text is the same.
- Whitelist entries are strings. A hand-edited whitelist holding JSON numbers would make `','.join` raise `TypeError`; that is not modelled.
- `display_whitelist` is modelled only through its `None` result for an empty whitelist, which `Whitelist.RemoveOnce` accounts for. Printing the listed shows is I/O.

=== FILE: queries.dfy ===
/** The SQL text of `query_tvshows` and `query_to_del`. Show ids arrive as
    strings (the whitelist holds the tokens the user typed) and are spliced
    into `IN (...)` lists with `','.join`. */
module Queries {
  import opened Wrappers
  import opened Text

  // ---------------------------------------------------------------------------
  // Fixed fragments of the statements
  // ---------------------------------------------------------------------------

  /** The statement of `query_tvshows` before any filter. */
  const ShowsSelect: string :=
    "\n\t\t\tSELECT \n\t\t\t\tDISTINCT(ep.idShow)\t\tid,\n\t\t\t\tep.strTitle\t\t\t\ttitle\n\t\t\tFROM episode_view \t\t\tep\n\t\t\t"

  const Where: string := "WHERE\n"
  const InOpen: string := "\tep.idShow IN "
  const AndNotInOpen: string := "\nAND\tep.idShow NOT IN "
  const NotInOpen: string := "\tep.idShow NOT IN "

  /** The statement of `query_to_del` up to its id list. */
  const ToDelHead: string :=
    "\n\t\t\tSELECT\n\t\t\t\tep.strTitle\t\tAS tvshow,\n\t\t\t\tep.c12\t\t\tAS season,\n\t\t\t\tep.c13\t\t\tAS episode,\n\t\t\t\tep.c18\t\t\tAS file_path\n\t\t\tFROM\n\t\t\t\tepisode_view ep \n\t\t\tWHERE \n\t\t\t\t\tep.playCount >= 1\n\t\t\t\tAND ep.idShow NOT IN "

  /** The statement of `query_to_del` after its id list. */
  const ToDelTail: string := "\n\t\t\t"

  /** An id as it can appear in an `IN` list: non-empty, and free of the
      characters that delimit the list. */
  predicate IsIdText(s: string) {
    s != [] && ',' !in s && ')' !in s
  }

  predicate AllIdText(ids: seq<string>) {
    forall i :: 0 <= i < |ids| ==> IsIdText(ids[i])
  }

  // ---------------------------------------------------------------------------
  // Rendering
  // ---------------------------------------------------------------------------

  /** `"(" + ','.join(ids) + ")"`. */
  function InList(ids: seq<string>): (r: string)
    ensures |r| >= 2 && r[0] == '(' && r[|r| - 1] == ')'
  {
    "(" + Join(ids, ',') + ")"
  }

  /** The filter part of `query_tvshows(cursor, filter_, filterOut)`; an
      absent (`None`) filter is the empty list, which Python also treats as false. */
  function ShowsFilter(filter: seq<string>, filterOut: seq<string>): (f: string)
    ensures f == "" <==> filter == [] && filterOut == []
    ensures filter != [] || filterOut != [] ==> Where <= f
  {
    (if filter != [] || filterOut != [] then Where else "")
    + (if filter != [] then InOpen + InList(filter) else "")
    + (if filter != [] && filterOut != [] then AndNotInOpen + InList(filterOut)
       else if filterOut != [] then NotInOpen + InList(filterOut)
       else "")
  }

  /** The whole statement `query_tvshows` runs. */
  function ShowsQuery(filter: seq<string>, filterOut: seq<string>): (q: string)
    ensures ShowsSelect <= q
    ensures q == ShowsSelect <==> filter == [] && filterOut == []
  {
    ShowsSelect + ShowsFilter(filter, filterOut)
  }

  /** The statement `query_to_del(cursor, whitelist)` runs: the `NOT IN` list
      is always there, empty (`()`) for an empty whitelist. */
  function ToDelQuery(whitelist: seq<string>): (q: string)
    ensures |q| == |ToDelHead| + |Join(whitelist, ',')| + 2 + |ToDelTail|
    ensures ToDelHead <= q
    ensures q[|ToDelHead|] == '('
    ensures whitelist == [] ==> q[|ToDelHead|..] == "()" + ToDelTail
  {
    ToDelHead + InList(whitelist) + ToDelTail
  }

  // ---------------------------------------------------------------------------
  // Reading the statements back
  // ---------------------------------------------------------------------------

  /** The ids of a comma-separated list; no text means no ids. */
  function Ids(body: string): seq<string> {
    if body == "" then [] else Split(body, ',')
  }

  /** Reads `"(" + ids + ")"` at the start of `s`; gives the ids and what follows. */
  function ReadList(s: string): (r: Option<(seq<string>, string)>)
    ensures r.Some? ==> |r.value.1| < |s|
  {
    if |s| == 0 || s[0] != '(' || ')' !in s then None
    else
      var close := FirstIndex(s, ')');
      Some((Ids(s[1..close]), s[close + 1..]))
  }

  /** Which lists a `query_tvshows` filter text selects by. */
  datatype Filters = Filters(filter: seq<string>, filterOut: seq<string>)

  /** Reads the `NOT IN` list that must end the filter text. */
  function ReadExclusion(s: string): Option<seq<string>> {
    match ReadList(s)
    case Some((exc, rest)) => if rest == "" then Some(exc) else None
    case None => None
  }

  /** Reads what follows the `IN` list: nothing, or the `AND ... NOT IN` list. */
  function DecodeAfterFilter(filter: seq<string>, rest: string): Option<Filters> {
    if rest == "" then Some(Filters(filter, []))
    else if AndNotInOpen <= rest then
      match ReadExclusion(rest[|AndNotInOpen|..])
      case Some(filterOut) => Some(Filters(filter, filterOut))
      case None => None
    else None
  }

  /** Reads the clauses after `WHERE`. */
  function DecodeClauses(body: string): Option<Filters> {
    if InOpen <= body then
      match ReadList(body[|InOpen|..])
      case Some((filter, rest)) => DecodeAfterFilter(filter, rest)
      case None => None
    else if NotInOpen <= body then
      match ReadExclusion(body[|NotInOpen|..])
      case Some(filterOut) => Some(Filters([], filterOut))
      case None => None
    else None
  }

  /** Parses the filter part of a `query_tvshows` statement. */
  function DecodeShowsFilter(f: string): Option<Filters> {
    if f == "" then Some(Filters([], []))
    else if Where <= f then DecodeClauses(f[|Where|..])
    else None
  }

  /** Parses a whole `query_tvshows` statement. */
  function DecodeShowsQuery(q: string): Option<Filters> {
    if ShowsSelect <= q then DecodeShowsFilter(q[|ShowsSelect|..]) else None
  }

  /** Parses a `query_to_del` statement back to its whitelist. */
  function DecodeToDel(q: string): Option<seq<string>> {
    if ToDelHead <= q then
      match ReadList(q[|ToDelHead|..])
      case Some((ids, rest)) => if rest == ToDelTail then Some(ids) else None
      case None => None
    else None
  }

  // ---------------------------------------------------------------------------
  // Round trips
  // ---------------------------------------------------------------------------

  /** A join of ids never holds a closing parenthesis. */
  lemma {:induction false} JoinNoClose(ids: seq<string>)
    requires AllIdText(ids)
    ensures ')' !in Join(ids, ',')
    decreases |ids|
  {
    if |ids| > 1 {
      assert AllIdText(ids[1..]) by {
        assert forall i :: 1 <= i < |ids| ==> ids[1..][i - 1] == ids[i];
      }
      JoinNoClose(ids[1..]);
    }
  }

  /** The ids of a joined list are the joined ids. */
  lemma IdsJoin(ids: seq<string>)
    requires AllIdText(ids)
    ensures Ids(Join(ids, ',')) == ids
  {
    if |ids| > 0 {
      assert Join(ids, ',') != "" by {
        if |ids| == 1 {
        } else {
          assert |Join(ids, ',')| >= |ids[0]|;
        }
      }
      SplitJoin(ids, ',');
    }
  }

  /** An `IN` list reads back as its ids, leaving what follows it. */
  lemma ReadInList(ids: seq<string>, rest: string)
    requires AllIdText(ids)
    ensures ReadList(InList(ids) + rest) == Some((ids, rest))
  {
    var j := Join(ids, ',');
    var s := InList(ids) + rest;
    JoinNoClose(ids);
    assert s == ("(" + j) + [')'] + rest;
    FirstIndexAfter("(" + j, ')', rest);
    assert s[1..|j| + 1] == j;
    assert s[|j| + 2..] == rest;
    IdsJoin(ids);
  }

  /** A text that starts with `WHERE` is read clause by clause. */
  lemma DecodeWhere(body: string)
    ensures DecodeShowsFilter(Where + body) == DecodeClauses(body)
  {
    assert (Where + body)[|Where|..] == body;
  }

  lemma OnlyFilterShape(filter: seq<string>)
    requires filter != []
    ensures ShowsFilter(filter, []) == Where + (InOpen + (InList(filter) + ""))
  {
  }

  /** An `IN` clause is read as its list followed by the rest of the text. */
  lemma InClause(rest: string)
    ensures DecodeClauses(InOpen + rest) == match ReadList(rest)
                                            case Some((filter, after)) => DecodeAfterFilter(filter, after)
                                            case None => None
  {
    assert (InOpen + rest)[|InOpen|..] == rest;
  }

  lemma DecodeOnlyFilter(filter: seq<string>)
    requires AllIdText(filter) && filter != []
    ensures DecodeShowsFilter(ShowsFilter(filter, [])) == Some(Filters(filter, []))
  {
    var rest := InList(filter) + "";
    OnlyFilterShape(filter);
    DecodeWhere(InOpen + rest);
    InClause(rest);
    ReadInList(filter, "");
  }

  lemma OnlyFilterOutShape(filterOut: seq<string>)
    requires filterOut != []
    ensures ShowsFilter([], filterOut) == Where + (NotInOpen + (InList(filterOut) + ""))
  {
  }

  /** A `NOT IN` clause is never mistaken for an `IN` clause. */
  lemma NotInClause(rest: string)
    ensures DecodeClauses(NotInOpen + rest) == match ReadExclusion(rest)
                                               case Some(filterOut) => Some(Filters([], filterOut))
                                               case None => None
  {
    var body := NotInOpen + rest;
    assert body[11] != InOpen[11];
    assert body[|NotInOpen|..] == rest;
  }

  lemma DecodeOnlyFilterOut(filterOut: seq<string>)
    requires AllIdText(filterOut) && filterOut != []
    ensures DecodeShowsFilter(ShowsFilter([], filterOut)) == Some(Filters([], filterOut))
  {
    var rest := InList(filterOut) + "";
    OnlyFilterOutShape(filterOut);
    DecodeWhere(NotInOpen + rest);
    NotInClause(rest);
    ReadInList(filterOut, "");
  }

  lemma BothFiltersShape(filter: seq<string>, filterOut: seq<string>)
    requires filter != [] && filterOut != []
    ensures ShowsFilter(filter, filterOut)
            == Where + (InOpen + (InList(filter) + (AndNotInOpen + (InList(filterOut) + ""))))
  {
  }

  /** After an `IN` list, an `AND ... NOT IN` clause gives the excluded ids. */
  lemma AndClause(filter: seq<string>, rest: string)
    ensures DecodeAfterFilter(filter, AndNotInOpen + rest) == match ReadExclusion(rest)
                                                          case Some(filterOut) => Some(Filters(filter, filterOut))
                                                          case None => None
  {
    assert (AndNotInOpen + rest)[|AndNotInOpen|..] == rest;
  }

  lemma DecodeBothFilters(filter: seq<string>, filterOut: seq<string>)
    requires AllIdText(filter) && filter != []
    requires AllIdText(filterOut) && filterOut != []
    ensures DecodeShowsFilter(ShowsFilter(filter, filterOut)) == Some(Filters(filter, filterOut))
  {
    var tail := AndNotInOpen + (InList(filterOut) + "");
    var rest := InList(filter) + tail;
    assert DecodeAfterFilter(filter, tail) == Some(Filters(filter, filterOut)) by {
      AndClause(filter, InList(filterOut) + "");
      ReadInList(filterOut, "");
    }
    assert ReadList(rest) == Some((filter, tail)) by {
      ReadInList(filter, tail);
    }
    BothFiltersShape(filter, filterOut);
    DecodeWhere(InOpen + rest);
    InClause(rest);
  }

  /** The `IN` clause follows `WHERE` exactly when there are ids to keep. */
  lemma InClausePresent(filter: seq<string>, filterOut: seq<string>)
    ensures Where + InOpen <= ShowsFilter(filter, filterOut) <==> filter != []
  {
    var f := ShowsFilter(filter, filterOut);
    if filter != [] && filterOut != [] {
      BothFiltersShape(filter, filterOut);
    } else if filter != [] {
      OnlyFilterShape(filter);
    } else if filterOut != [] {
      OnlyFilterOutShape(filterOut);
      assert f[|Where| + 11] != (Where + InOpen)[|Where| + 11];
    }
  }

  /** The `AND ... NOT IN` clause follows the `IN` list exactly when both
      lists hold ids. */
  lemma AndClausePresent(filter: seq<string>, filterOut: seq<string>)
    ensures Where + InOpen + InList(filter) + AndNotInOpen <= ShowsFilter(filter, filterOut)
            <==> filter != [] && filterOut != []
  {
    if filter != [] && filterOut != [] {
      AndAfterBoth(filter, filterOut);
    } else if filter != [] {
      NoAndAfterFilter(filter);
    } else {
      InClausePresent(filter, filterOut);
      PrefixGrow(Where + InOpen, InList(filter) + AndNotInOpen, ShowsFilter(filter, filterOut));
    }
  }

  lemma AndAfterBoth(filter: seq<string>, filterOut: seq<string>)
    requires filter != [] && filterOut != []
    ensures Where + InOpen + InList(filter) + AndNotInOpen <= ShowsFilter(filter, filterOut)
  {
    BothFiltersShape(filter, filterOut);
    PrefixOfNested(Where, InOpen, InList(filter), AndNotInOpen, InList(filterOut) + "");
  }

  lemma PrefixOfNested(a: string, b: string, c: string, d: string, e: string)
    ensures a + b + c + d <= a + (b + (c + (d + e)))
  {
    assert a + (b + (c + (d + e))) == (a + b + c + d) + e;
  }

  lemma NoAndAfterFilter(filter: seq<string>)
    requires filter != []
    ensures !(Where + InOpen + InList(filter) + AndNotInOpen <= ShowsFilter(filter, []))
  {
    OnlyFilterShape(filter);
    assert |ShowsFilter(filter, [])| < |Where + InOpen + InList(filter) + AndNotInOpen|;
  }

  /** A text that starts with `a + b` starts with `a`. */
  lemma PrefixGrow(a: string, b: string, s: string)
    ensures a + b <= s ==> a <= s
  {
    if a + b <= s {
      assert s[..|a|] == (a + b)[..|a|] == a;
    }
  }

  /** A filter text reads back as the lists it was built from. */
  lemma DecodeShowsFilterRoundTrip(filter: seq<string>, filterOut: seq<string>)
    requires AllIdText(filter) && AllIdText(filterOut)
    ensures DecodeShowsFilter(ShowsFilter(filter, filterOut)) == Some(Filters(filter, filterOut))
  {
    if filter == [] && filterOut == [] {
    } else if filter == [] {
      DecodeOnlyFilterOut(filterOut);
    } else if filterOut == [] {
      DecodeOnlyFilter(filter);
    } else {
      DecodeBothFilters(filter, filterOut);
    }
  }

  /** A `query_tvshows` statement reads back as the lists it was built from,
      so different filters give different statements. */
  lemma ShowsQueryRoundTrip(filter: seq<string>, filterOut: seq<string>)
    requires AllIdText(filter) && AllIdText(filterOut)
    ensures DecodeShowsQuery(ShowsQuery(filter, filterOut)) == Some(Filters(filter, filterOut))
  {
    var q := ShowsQuery(filter, filterOut);
    assert q[|ShowsSelect|..] == ShowsFilter(filter, filterOut);
    DecodeShowsFilterRoundTrip(filter, filterOut);
  }

  /** A `query_to_del` statement reads back as the whitelist it excludes. */
  lemma ToDelRoundTrip(whitelist: seq<string>)
    requires AllIdText(whitelist)
    ensures DecodeToDel(ToDelQuery(whitelist)) == Some(whitelist)
  {
    var q := ToDelQuery(whitelist);
    assert q[|ToDelHead|..] == InList(whitelist) + ToDelTail;
    ReadInList(whitelist, ToDelTail);
  }
}

=== FILE: rows.dfy ===
/** Query results as the script sees them: `dict_factory` turns the cursor's
    column names and the fetched row tuples into one Python dict per row. */
module Rows {
  import opened Wrappers

  /** A Python dict: its (key, value) items in insertion order. */
  type Row<V> = seq<(string, V)>

  function Keys<V>(row: Row<V>): (ks: seq<string>)
    ensures |ks| == |row|
    ensures forall j :: 0 <= j < |row| ==> ks[j] == row[j].0
    decreases |row|
  {
    if |row| == 0 then [] else [row[0].0] + Keys(row[1..])
  }

  /** Dict keys never repeat. */
  predicate DistinctKeys<V>(row: Row<V>)
    decreases |row|
  {
    |row| == 0 || (row[0].0 !in Keys(row[1..]) && DistinctKeys(row[1..]))
  }

  /** `d.get(k)`. */
  function Get<V>(row: Row<V>, k: string): Option<V>
    decreases |row|
  {
    if |row| == 0 then None
    else if row[0].0 == k then Some(row[0].1)
    else Get(row[1..], k)
  }

  /** A lookup fails exactly for the keys the dict does not hold. */
  lemma {:induction false} GetNone<V>(row: Row<V>, k: string)
    ensures Get(row, k).None? <==> k !in Keys(row)
    decreases |row|
  {
    if |row| > 0 {
      GetNone(row[1..], k);
      assert Keys(row) == [row[0].0] + Keys(row[1..]);
    }
  }

  /** `d[k] = v`: an existing key keeps its place and takes the new value,
      a new key goes at the end. */
  function Put<V>(row: Row<V>, k: string, v: V): (r: Row<V>)
    requires DistinctKeys(row)
    ensures DistinctKeys(r)
    ensures Keys(r) == if k in Keys(row) then Keys(row) else Keys(row) + [k]
    decreases |row|
  {
    if |row| == 0 then [(k, v)]
    else if row[0].0 == k then
      var r := [(k, v)] + row[1..];
      assert r[1..] == row[1..];
      r
    else
      var rest := Put(row[1..], k, v);
      var r := [row[0]] + rest;
      assert r[1..] == rest;
      r
  }

  /** After `d[k] = v`, `d[k]` is `v`. */
  lemma {:induction false} PutGet<V>(row: Row<V>, k: string, v: V)
    requires DistinctKeys(row)
    ensures Get(Put(row, k, v), k) == Some(v)
    decreases |row|
  {
    if |row| > 0 && row[0].0 != k {
      PutGet(row[1..], k, v);
    }
  }

  /** `d[k] = v` leaves every other key's value alone. */
  lemma {:induction false} PutOther<V>(row: Row<V>, k: string, v: V, k': string)
    requires DistinctKeys(row)
    requires k' != k
    ensures Get(Put(row, k, v), k') == Get(row, k')
    decreases |row|
  {
    if |row| > 0 && row[0].0 != k {
      PutOther(row[1..], k, v, k');
    }
  }

  /** The inner loop of `dict_factory`: `d[col[0]] = row[idx]` for every
      column of the cursor description, in order. */
  function MakeRow<V>(names: seq<string>, values: seq<V>): (d: Row<V>)
    requires |names| <= |values|
    ensures DistinctKeys(d)
    decreases |names|
  {
    if |names| == 0 then []
    else
      var n := |names| - 1;
      Put(MakeRow(names[..n], values), names[n], values[n])
  }

  /** `dict_factory(cursor, rows)`: `None` stays `None`; otherwise one dict per row. */
  function DictFactory<V>(names: seq<string>, rows: Option<seq<seq<V>>>): (r: Option<seq<Row<V>>>)
    requires rows.Some? ==> forall i :: 0 <= i < |rows.value| ==> |names| <= |rows.value[i]|
    ensures r.None? <==> rows.None?
    ensures r.Some? ==> |r.value| == |rows.value|
    ensures r.Some? ==> forall i :: 0 <= i < |r.value| ==> DistinctKeys(r.value[i])
  {
    match rows
    case None => None
    case Some(rs) => Some(seq(|rs|, i requires 0 <= i < |rs| => MakeRow(names, rs[i])))
  }

  /** If `names[j]` does not occur after `j`, the same holds in the prefix
      without the last name, and the last name differs from it. */
  lemma LastOccurrenceStep(names: seq<string>, j: nat)
    requires j < |names| - 1
    requires names[j] !in names[j + 1..]
    ensures names[|names| - 1] != names[j]
    ensures names[..|names| - 1][j] == names[j]
    ensures names[j] !in names[..|names| - 1][j + 1..]
  {
    var n := |names| - 1;
    assert names[n] == names[j + 1..][n - j - 1];
    assert names[..n][j + 1..] == names[j + 1..n];
    assert names[j + 1..n] <= names[j + 1..];
  }

  /** Each key of a built row holds the value of the LAST column of that name
      (a later `d[k] = v` overwrites an earlier one). */
  lemma {:induction false} MakeRowGet<V>(names: seq<string>, values: seq<V>, j: nat)
    requires |names| <= |values|
    requires j < |names|
    requires names[j] !in names[j + 1..]
    ensures Get(MakeRow(names, values), names[j]) == Some(values[j])
    decreases |names|, 1
  {
    var n := |names| - 1;
    if j < n {
      MakeRowGetEarlier(names, values, j);
    } else {
      PutGet(MakeRow(names[..n], values), names[n], values[n]);
    }
  }

  /** The step of `MakeRowGet` for a column before the last one: the last
      assignment is to another key and leaves this one alone. */
  lemma {:induction false} MakeRowGetEarlier<V>(names: seq<string>, values: seq<V>, j: nat)
    requires |names| <= |values|
    requires j < |names| - 1
    requires names[j] !in names[j + 1..]
    ensures Get(MakeRow(names, values), names[j]) == Some(values[j])
    decreases |names|, 0
  {
    var n := |names| - 1;
    var m := MakeRow(names[..n], values);
    LastOccurrenceStep(names, j);
    MakeRowGet(names[..n], values, j);
    PutOther(m, names[n], values[n], names[j]);
  }

  /** A name that is not a column is not a key. */
  lemma {:induction false} MakeRowAbsent<V>(names: seq<string>, values: seq<V>, k: string)
    requires |names| <= |values|
    requires k !in names
    ensures Get(MakeRow(names, values), k) == None
    ensures k !in Keys(MakeRow(names, values))
    decreases |names|
  {
    if |names| > 0 {
      var n := |names| - 1;
      var prefix := names[..n];
      var m := MakeRow(prefix, values);
      assert MakeRow(names, values) == Put(m, names[n], values[n]);
      assert k !in prefix;
      MakeRowAbsent(prefix, values, k);
      PutOther(m, names[n], values[n], k);
    }
    GetNone(MakeRow(names, values), k);
  }

  /** No column name repeats. */
  predicate Distinct(names: seq<string>) {
    forall i, j :: 0 <= i < j < |names| ==> names[i] != names[j]
  }

  lemma DistinctPrefix(names: seq<string>)
    requires Distinct(names) && |names| > 0
    ensures Distinct(names[..|names| - 1])
    ensures names[|names| - 1] !in names[..|names| - 1]
  {
  }

  /** With distinct column names, the keys are the column names, in order. */
  lemma {:induction false} MakeRowKeys<V>(names: seq<string>, values: seq<V>)
    requires |names| <= |values|
    requires Distinct(names)
    ensures Keys(MakeRow(names, values)) == names
    decreases |names|
  {
    if |names| > 0 {
      DistinctPrefix(names);
      MakeRowKeys(names[..|names| - 1], values);
      MakeRowKeysStep(names, values);
    }
  }

  /** The step of `MakeRowKeys`: a fresh last column is appended after the
      keys of the prefix. */
  lemma MakeRowKeysStep<V>(names: seq<string>, values: seq<V>)
    requires 0 < |names| <= |values|
    requires names[|names| - 1] !in names[..|names| - 1]
    requires Keys(MakeRow(names[..|names| - 1], values)) == names[..|names| - 1]
    ensures Keys(MakeRow(names, values)) == names
  {
    var n := |names| - 1;
    var m := MakeRow(names[..n], values);
    assert MakeRow(names, values) == Put(m, names[n], values[n]);
    AppendNewKey(m, names[..n], names[n], values[n]);
    DropLast(names);
  }

  lemma DropLast<T>(s: seq<T>)
    requires |s| > 0
    ensures s[..|s| - 1] + [s[|s| - 1]] == s
  {
  }

  lemma AppendNewKey<V>(m: Row<V>, ks: seq<string>, k: string, v: V)
    requires DistinctKeys(m) && Keys(m) == ks && k !in ks
    ensures Keys(Put(m, k, v)) == ks + [k]
  {
  }

  /** The keys of a built row depend on the column names only, never on the values. */
  lemma {:induction false} MakeRowKeysShared<V>(names: seq<string>, a: seq<V>, b: seq<V>)
    requires |names| <= |a| && |names| <= |b|
    ensures Keys(MakeRow(names, a)) == Keys(MakeRow(names, b))
    decreases |names|
  {
    if |names| > 0 {
      MakeRowKeysShared(names[..|names| - 1], a, b);
    }
  }

  /** With distinct column names, row `i` of the result maps column name `j`
      to `rows[i][j]`, and nothing else is a key. */
  lemma DictFactoryLookup<V>(names: seq<string>, rows: seq<seq<V>>, i: nat, j: nat)
    requires forall i' :: 0 <= i' < |rows| ==> |names| <= |rows[i']|
    requires Distinct(names)
    requires i < |rows| && j < |names|
    ensures DictFactory(names, Some(rows)).Some?
    ensures Keys(DictFactory(names, Some(rows)).value[i]) == names
    ensures Get(DictFactory(names, Some(rows)).value[i], names[j]) == Some(rows[i][j])
  {
    assert names[j] !in names[j + 1..] by {
      forall k | j + 1 <= k < |names|
        ensures names[k] != names[j]
      {
      }
    }
    MakeRowGet(names, rows[i], j);
    MakeRowKeys(names, rows[i]);
  }

  /** Every row of a result carries the same keys in the same order. */
  lemma DictFactoryUniform<V>(names: seq<string>, rows: seq<seq<V>>, i: nat)
    requires forall i' :: 0 <= i' < |rows| ==> |names| <= |rows[i']|
    requires i < |rows|
    ensures Keys(DictFactory(names, Some(rows)).value[i]) == Keys(DictFactory(names, Some(rows)).value[0])
  {
    MakeRowKeysShared(names, rows[i], rows[0]);
  }
}

=== FILE: table.dfy ===
/** `pretty_table`: renders a list of uniform result rows as a fixed-width
    ASCII table, one header line, one `=` rule, one line per row. */
module Table {
  import opened Text
  import opened Rows

  /** The rows `pretty_table` is given: dicts whose values are already
      rendered with `str(v)`, all with the keys of the first row in its order. */
  predicate Uniform(data: seq<Row<string>>) {
    |data| > 0 ==>
      && DistinctKeys(data[0])
      && forall i :: 0 <= i < |data| ==> |data[i]| == |data[0]| && Keys(data[i]) == Keys(data[0])
  }

  function Values(row: Row<string>): (vs: seq<string>)
    ensures |vs| == |row|
    ensures forall j :: 0 <= j < |row| ==> vs[j] == row[j].1
    decreases |row|
  {
    if |row| == 0 then [] else [row[0].1] + Values(row[1..])
  }

  // ---------------------------------------------------------------------------
  // Column widths
  // ---------------------------------------------------------------------------

  /** `w` is the width of column `j`: the longest of its header and its values. */
  predicate IsColumnWidth(data: seq<Row<string>>, j: nat, w: nat)
    requires |data| > 0 && Uniform(data) && j < |data[0]|
  {
    && |data[0][j].0| <= w
    && (forall i :: 0 <= i < |data| ==> |data[i][j].1| <= w)
    && (w == |data[0][j].0| || exists i :: 0 <= i < |data| && w == |data[i][j].1|)
  }

  /** One row of the sizing loop: `if len(str(v)) > sizes[k]: sizes[k] = len(str(v))`. */
  function Widen(sizes: seq<nat>, row: Row<string>): (r: seq<nat>)
    requires |row| == |sizes|
    ensures |r| == |sizes|
    ensures forall j :: 0 <= j < |r| ==> sizes[j] <= r[j] && |row[j].1| <= r[j]
    ensures forall j :: 0 <= j < |r| ==> r[j] == sizes[j] || r[j] == |row[j].1|
  {
    seq(|sizes|, j requires 0 <= j < |sizes| => if |row[j].1| > sizes[j] then |row[j].1| else sizes[j])
  }

  /** The sizing loop over all rows, starting from the given sizes. */
  function FoldSizes(sizes: seq<nat>, rows: seq<Row<string>>): (r: seq<nat>)
    requires forall i :: 0 <= i < |rows| ==> |rows[i]| == |sizes|
    ensures |r| == |sizes|
    ensures forall j :: 0 <= j < |r| ==> sizes[j] <= r[j]
    ensures forall i, j :: 0 <= i < |rows| && 0 <= j < |r| ==> |rows[i][j].1| <= r[j]
    ensures forall j :: 0 <= j < |r| ==>
              r[j] == sizes[j] || exists i :: 0 <= i < |rows| && r[j] == |rows[i][j].1|
    decreases |rows|
  {
    if |rows| == 0 then sizes
    else
      var r := FoldSizes(Widen(sizes, rows[0]), rows[1..]);
      assert forall i :: 1 <= i < |rows| ==> rows[1..][i - 1] == rows[i];
      r
  }

  /** Lengths of the header keys: the sizes before any row is seen. */
  function HeaderSizes(keys: seq<string>): (s: seq<nat>)
    ensures |s| == |keys|
    ensures forall j :: 0 <= j < |s| ==> s[j] == |keys[j]|
  {
    seq(|keys|, j requires 0 <= j < |keys| => |keys[j]|)
  }

  /** `sizes`, in the key order of the first row. */
  function ColumnSizes(data: seq<Row<string>>): (sizes: seq<nat>)
    requires |data| > 0 && Uniform(data)
    ensures |sizes| == |data[0]|
    ensures forall j :: 0 <= j < |sizes| ==> IsColumnWidth(data, j, sizes[j])
  {
    FoldSizes(HeaderSizes(Keys(data[0])), data)
  }

  // ---------------------------------------------------------------------------
  // Lines
  // ---------------------------------------------------------------------------

  function Sum(xs: seq<nat>): nat
    decreases |xs|
  {
    if |xs| == 0 then 0 else xs[0] + Sum(xs[1..])
  }

  /** `width` in the source: the length every line of the table has. */
  function LineWidth(sizes: seq<nat>): nat {
    Sum(sizes) + 3 * |sizes| + 1
  }

  /** Where the cell of column `j` starts on a line (column `|sizes|` is the closing bar). */
  function Offset(sizes: seq<nat>, j: nat): nat
    requires j <= |sizes|
    decreases j
  {
    if j == 0 then 0 else sizes[0] + 3 + Offset(sizes[1..], j - 1)
  }

  /** Every text fits the width of its column. */
  predicate Fits(texts: seq<string>, sizes: seq<nat>) {
    |texts| == |sizes| && forall j :: 0 <= j < |texts| ==> |texts[j]| <= sizes[j]
  }

  /** One cell: `f"| {text} {spaces}"`, padded to the column width. */
  function Cell(text: string, size: nat): (cell: string)
    requires |text| <= size
    ensures |cell| == size + 3
  {
    "| " + text + " " + Repeat(' ', size - |text|)
  }

  /** A header or data line: the cells in column order, then the closing `|`. */
  function CellLine(texts: seq<string>, sizes: seq<nat>): (line: string)
    requires Fits(texts, sizes)
    ensures |line| == LineWidth(sizes)
    decreases |texts|
  {
    if |texts| == 0 then "|"
    else
      assert Fits(texts[1..], sizes[1..]) by {
        assert forall j :: 1 <= j < |texts| ==> texts[1..][j - 1] == texts[j] && sizes[1..][j - 1] == sizes[j];
      }
      Cell(texts[0], sizes[0]) + CellLine(texts[1..], sizes[1..])
  }

  /** One column of the separator: `"|" + "=" * (size + 2)`. */
  function Rule(size: nat): string {
    "|" + Repeat('=', size + 2)
  }

  /** The separator line under the header. */
  function SeparatorLine(sizes: seq<nat>): (line: string)
    ensures |line| == LineWidth(sizes)
    decreases |sizes|
  {
    if |sizes| == 0 then "|" else Rule(sizes[0]) + SeparatorLine(sizes[1..])
  }

  /** Where line `k` starts in a text of lines `w` wide, each ended by a newline. */
  function LineStart(k: nat, w: nat): nat {
    k * (w + 1)
  }

  lemma MulStep(k: nat, w: nat)
    requires k > 0
    ensures LineStart(k, w) == LineStart(k - 1, w) + (w + 1)
  {
  }

  /** Every value of every row fits its column. */
  predicate RowsFit(rows: seq<Row<string>>, sizes: seq<nat>) {
    forall i :: 0 <= i < |rows| ==> Fits(Values(rows[i]), sizes)
  }

  /** The data part of the table: each row's line followed by a newline. */
  function RowsText(rows: seq<Row<string>>, sizes: seq<nat>): (text: string)
    requires RowsFit(rows, sizes)
    ensures |text| == LineStart(|rows|, LineWidth(sizes))
    decreases |rows|
  {
    if |rows| == 0 then ""
    else
      assert RowsFit(rows[1..], sizes) by {
        assert forall i :: 1 <= i < |rows| ==> rows[1..][i - 1] == rows[i];
      }
      MulStep(|rows|, LineWidth(sizes));
      CellLine(Values(rows[0]), sizes) + "\n" + RowsText(rows[1..], sizes)
  }

  lemma ColumnSizesFit(data: seq<Row<string>>)
    requires |data| > 0 && Uniform(data)
    ensures Fits(Keys(data[0]), ColumnSizes(data))
    ensures RowsFit(data, ColumnSizes(data))
  {
    var sizes := ColumnSizes(data);
    forall i | 0 <= i < |data|
      ensures Fits(Values(data[i]), sizes)
    {
      forall j | 0 <= j < |sizes|
        ensures |Values(data[i])[j]| <= sizes[j]
      {
        assert IsColumnWidth(data, j, sizes[j]);
      }
    }
    forall j | 0 <= j < |sizes|
      ensures |Keys(data[0])[j]| <= sizes[j]
    {
      assert IsColumnWidth(data, j, sizes[j]);
    }
  }

  /** `pretty_table(data)`. */
  function PrettyTable(data: seq<Row<string>>): (table: string)
    requires Uniform(data)
    ensures data == [] ==> table == "No data"
    ensures data != [] ==> |table| == LineStart(|data| + 2, LineWidth(ColumnSizes(data)))
  {
    if |data| == 0 then "No data"
    else
      var sizes := ColumnSizes(data);
      assert Fits(Keys(data[0]), sizes) && RowsFit(data, sizes) by {
        ColumnSizesFit(data);
      }
      MulStep(|data| + 2, LineWidth(sizes));
      MulStep(|data| + 1, LineWidth(sizes));
      CellLine(Keys(data[0]), sizes) + "\n" + SeparatorLine(sizes) + "\n" + RowsText(data, sizes)
  }

  // ---------------------------------------------------------------------------
  // Shape of the rendered table
  // ---------------------------------------------------------------------------

  /** The lines of a non-empty table, in output order: header, separator, one per row. */
  function TableLines(data: seq<Row<string>>): (lines: seq<string>)
    requires |data| > 0 && Uniform(data)
    ensures |lines| == |data| + 2
    ensures forall k :: 0 <= k < |lines| ==> |lines[k]| == LineWidth(ColumnSizes(data))
  {
    var sizes := ColumnSizes(data);
    ColumnSizesFit(data);
    var head := [CellLine(Keys(data[0]), sizes), SeparatorLine(sizes)];
    var rows := RowLines(data, sizes);
    assert forall i :: 0 <= i < |rows| ==> |rows[i]| == LineWidth(sizes);
    head + rows
  }

  function RowLines(rows: seq<Row<string>>, sizes: seq<nat>): (lines: seq<string>)
    requires RowsFit(rows, sizes)
    ensures |lines| == |rows|
    ensures forall i :: 0 <= i < |rows| ==> lines[i] == CellLine(Values(rows[i]), sizes)
  {
    seq(|rows|, i requires 0 <= i < |rows| => CellLine(Values(rows[i]), sizes))
  }

  lemma {:induction false} RowsTextLines(rows: seq<Row<string>>, sizes: seq<nat>)
    requires RowsFit(rows, sizes)
    ensures RowsText(rows, sizes) == Join(RowLines(rows, sizes) + [""], '\n')
    decreases |rows|
  {
    if |rows| > 0 {
      assert RowsFit(rows[1..], sizes) by {
        assert forall i :: 1 <= i < |rows| ==> rows[1..][i - 1] == rows[i];
      }
      RowsTextLines(rows[1..], sizes);
      assert RowLines(rows, sizes) + [""] == [RowLines(rows, sizes)[0]] + (RowLines(rows[1..], sizes) + [""]);
      JoinCons(RowLines(rows, sizes)[0], RowLines(rows[1..], sizes) + [""], '\n');
    }
  }

  /** Header, separator and row text, newline-separated, are the join of all lines. */
  lemma JoinTable(header: string, sep: string, rows: seq<Row<string>>, sizes: seq<nat>)
    requires RowsFit(rows, sizes)
    ensures header + "\n" + sep + "\n" + RowsText(rows, sizes)
            == Join([header, sep] + (RowLines(rows, sizes) + [""]), '\n')
  {
    var rest := RowLines(rows, sizes) + [""];
    RowsTextLines(rows, sizes);
    JoinCons(sep, rest, '\n');
    JoinCons(header, [sep] + rest, '\n');
    assert [header, sep] + rest == [header] + ([sep] + rest);
  }

  /** A non-empty table is its lines, each followed by a newline. */
  lemma PrettyTableLines(data: seq<Row<string>>)
    requires |data| > 0 && Uniform(data)
    ensures PrettyTable(data) == Join(TableLines(data) + [""], '\n')
  {
    var sizes := ColumnSizes(data);
    assert Fits(Keys(data[0]), sizes) && RowsFit(data, sizes) by {
      ColumnSizesFit(data);
    }
    var header := CellLine(Keys(data[0]), sizes);
    var sep := SeparatorLine(sizes);
    JoinTable(header, sep, data, sizes);
    assert TableLines(data) + [""] == [header, sep] + (RowLines(data, sizes) + [""]);
  }

  lemma {:induction false} CellLineNoNewline(texts: seq<string>, sizes: seq<nat>)
    requires Fits(texts, sizes)
    requires forall j :: 0 <= j < |texts| ==> '\n' !in texts[j]
    ensures '\n' !in CellLine(texts, sizes)
    decreases |texts|
  {
    if |texts| > 0 {
      assert Fits(texts[1..], sizes[1..]) by {
        assert forall j :: 1 <= j < |texts| ==> texts[1..][j - 1] == texts[j] && sizes[1..][j - 1] == sizes[j];
      }
      assert forall j :: 1 <= j < |texts| ==> texts[1..][j - 1] == texts[j];
      CellLineNoNewline(texts[1..], sizes[1..]);
      assert '\n' !in Repeat(' ', sizes[0] - |texts[0]|);
    }
  }

  /** The separator is made of bars and `=` only, and each column
      contributes its width plus two `=`. */
  lemma {:induction false} SeparatorShape(sizes: seq<nat>)
    ensures forall k :: 0 <= k < |SeparatorLine(sizes)| ==>
              SeparatorLine(sizes)[k] == '|' || SeparatorLine(sizes)[k] == '='
    ensures Count(SeparatorLine(sizes), '=') == Sum(sizes) + 2 * |sizes|
    ensures Count(SeparatorLine(sizes), '|') == |sizes| + 1
    decreases |sizes|
  {
    if |sizes| == 0 {
      assert Count("|", '=') == 0;
    } else {
      SeparatorShape(sizes[1..]);
      var eqs := Repeat('=', sizes[0] + 2);
      RepeatCount('=', sizes[0] + 2);
      CountAbsent(eqs, '|');
      assert Rule(sizes[0]) == "|" + eqs;
      CountAppend("|", eqs, '=');
      CountAppend("|", eqs, '|');
      CountAppend(Rule(sizes[0]), SeparatorLine(sizes[1..]), '=');
      CountAppend(Rule(sizes[0]), SeparatorLine(sizes[1..]), '|');
    }
  }

  lemma {:induction false} RepeatCount(c: char, n: nat)
    ensures Count(Repeat(c, n), c) == n
    decreases n
  {
    if n > 0 {
      assert Repeat(c, n)[1..] == Repeat(c, n - 1);
      RepeatCount(c, n - 1);
    }
  }

  /** Keys and values without newlines make lines without newlines. */
  lemma TableLinesNoNewline(data: seq<Row<string>>)
    requires |data| > 0 && Uniform(data)
    requires forall i, j :: 0 <= i < |data| && 0 <= j < |data[i]| ==>
               '\n' !in data[i][j].0 && '\n' !in data[i][j].1
    ensures forall k :: 0 <= k < |TableLines(data)| ==> '\n' !in TableLines(data)[k]
  {
    var lines := TableLines(data);
    forall k | 0 <= k < |lines|
      ensures '\n' !in lines[k]
    {
      if k == 0 {
        HeaderLines(data);
        assert forall j :: 0 <= j < |data[0]| ==> '\n' !in Keys(data[0])[j];
        CellLineNoNewline(Keys(data[0]), ColumnSizes(data));
      } else if k == 1 {
        HeaderLines(data);
        SeparatorShape(ColumnSizes(data));
      } else {
        RowLineNoNewline(data, k - 2);
      }
    }
  }

  lemma RowLineNoNewline(data: seq<Row<string>>, i: nat)
    requires |data| > 0 && Uniform(data) && i < |data|
    requires forall j :: 0 <= j < |data[i]| ==> '\n' !in data[i][j].1
    ensures '\n' !in TableLines(data)[i + 2]
  {
    RowLine(data, i);
    CellLineNoNewline(Values(data[i]), ColumnSizes(data));
  }

  /** Every line of a table with newline-free keys and values splits back
      into exactly its header, separator and row lines, so the table holds
      `2 + |data|` newlines. */
  lemma PrettyTableSplit(data: seq<Row<string>>)
    requires |data| > 0 && Uniform(data)
    requires forall i, j :: 0 <= i < |data| && 0 <= j < |data[i]| ==>
               '\n' !in data[i][j].0 && '\n' !in data[i][j].1
    ensures Split(PrettyTable(data), '\n') == TableLines(data) + [""]
    ensures Count(PrettyTable(data), '\n') == |data| + 2
  {
    var lines := TableLines(data) + [""];
    assert forall k :: 0 <= k < |lines| ==> '\n' !in lines[k] by {
      TableLinesNoNewline(data);
    }
    PrettyTableLines(data);
    SplitJoin(lines, '\n');
    SplitCount(PrettyTable(data), '\n');
  }

  /** Cell `j` of `line` is `text`, padded to the width of column `j`. */
  predicate CellIs(line: string, sizes: seq<nat>, j: nat, text: string)
    requires j < |sizes|
  {
    && Offset(sizes, j) + sizes[j] + 3 <= |line|
    && |text| <= sizes[j]
    && line[Offset(sizes, j)..Offset(sizes, j) + sizes[j] + 3] == Cell(text, sizes[j])
  }

  /** A cell found in `rest` at column `j - 1` of the remaining columns is
      found after `first` at column `j`. */
  lemma CellIsShift(first: string, rest: string, sizes: seq<nat>, j: nat, text: string)
    requires 0 < j < |sizes| && |first| == sizes[0] + 3
    requires CellIs(rest, sizes[1..], j - 1, text)
    ensures CellIs(first + rest, sizes, j, text)
  {
    var lo := Offset(sizes[1..], j - 1);
    var hi := lo + sizes[j] + 3;
    assert sizes[1..][j - 1] == sizes[j];
    assert (first + rest)[|first| + lo..|first| + hi] == rest[lo..hi];
  }

  lemma FitsTail(texts: seq<string>, sizes: seq<nat>)
    requires Fits(texts, sizes) && |texts| > 0
    ensures Fits(texts[1..], sizes[1..])
  {
    assert forall j :: 1 <= j < |texts| ==> texts[1..][j - 1] == texts[j] && sizes[1..][j - 1] == sizes[j];
  }

  /** Cell `j` of a header or data line sits at `Offset(sizes, j)`: the
      cells appear in column order, each padded to its width. */
  lemma {:induction false} CellAt(texts: seq<string>, sizes: seq<nat>, j: nat)
    requires Fits(texts, sizes) && j < |texts|
    ensures CellIs(CellLine(texts, sizes), sizes, j, texts[j])
    decreases j
  {
    var first := Cell(texts[0], sizes[0]);
    FitsTail(texts, sizes);
    var rest := CellLine(texts[1..], sizes[1..]);
    assert CellLine(texts, sizes) == first + rest;
    if j == 0 {
      assert (first + rest)[..|first|] == first;
    } else {
      CellAt(texts[1..], sizes[1..], j - 1);
      assert texts[1..][j - 1] == texts[j];
      CellIsShift(first, rest, sizes, j, texts[j]);
    }
  }

  /** Column borders line up on header and data lines: a `|` at the start
      of each column and at the end of the line. */
  lemma {:induction false} CellLineBorders(texts: seq<string>, sizes: seq<nat>, j: nat)
    requires Fits(texts, sizes) && j <= |sizes|
    ensures Offset(sizes, j) < LineWidth(sizes)
    ensures CellLine(texts, sizes)[Offset(sizes, j)] == '|'
    decreases j
  {
    if j > 0 {
      var first := Cell(texts[0], sizes[0]);
      var rest := CellLine(texts[1..], sizes[1..]);
      assert Fits(texts[1..], sizes[1..]) by {
        assert forall j :: 1 <= j < |texts| ==> texts[1..][j - 1] == texts[j] && sizes[1..][j - 1] == sizes[j];
      }
      assert CellLine(texts, sizes) == first + rest;
      CellLineBorders(texts[1..], sizes[1..], j - 1);
      assert (first + rest)[|first| + Offset(sizes[1..], j - 1)] == rest[Offset(sizes[1..], j - 1)];
    }
  }

  /** The separator has its `|` at the same places as the other lines. */
  lemma {:induction false} SeparatorBorders(sizes: seq<nat>, j: nat)
    requires j <= |sizes|
    ensures Offset(sizes, j) < LineWidth(sizes)
    ensures SeparatorLine(sizes)[Offset(sizes, j)] == '|'
    decreases j
  {
    if j > 0 {
      var first := Rule(sizes[0]);
      var rest := SeparatorLine(sizes[1..]);
      assert SeparatorLine(sizes) == first + rest;
      SeparatorBorders(sizes[1..], j - 1);
      assert (first + rest)[|first| + Offset(sizes[1..], j - 1)] == rest[Offset(sizes[1..], j - 1)];
    }
  }

  /** In a join of equally wide lines, line `k` starts at `LineStart(k, w)`. */
  lemma {:induction false} JoinFixedWidth(lines: seq<string>, w: nat, k: nat)
    requires forall m :: 0 <= m < |lines| ==> |lines[m]| == w
    requires k < |lines|
    ensures |Join(lines + [""], '\n')| == LineStart(|lines|, w)
    ensures LineStart(k, w) + w <= |Join(lines + [""], '\n')|
    ensures Join(lines + [""], '\n')[LineStart(k, w)..LineStart(k, w) + w] == lines[k]
    decreases |lines|
  {
    var rest := lines[1..] + [""];
    assert lines + [""] == [lines[0]] + rest;
    JoinCons(lines[0], rest, '\n');
    var text := Join(lines + [""], '\n');
    assert text == lines[0] + "\n" + Join(rest, '\n');
    if |lines| == 1 {
      assert rest == [""];
      assert text == lines[0] + "\n";
      assert k == 0;
    } else {
      var m := if k == 0 then 0 else k - 1;
      JoinFixedWidth(lines[1..], w, m);
      var tail := Join(rest, '\n');
      assert |tail| == LineStart(|lines| - 1, w);
      MulStep(|lines|, w);
      if k > 0 {
        MulStep(k, w);
        assert text[w + 1..] == tail;
        assert tail[LineStart(m, w)..LineStart(m, w) + w] == lines[k];
      } else {
        assert text[..w] == lines[0];
      }
    }
  }

  /** Line `k` of a non-empty table starts at `k * (width + 1)`. */
  lemma TableLineAt(data: seq<Row<string>>, k: nat)
    requires |data| > 0 && Uniform(data) && k < |data| + 2
    ensures var w := LineWidth(ColumnSizes(data));
            && LineStart(k, w) + w <= |PrettyTable(data)|
            && PrettyTable(data)[LineStart(k, w)..LineStart(k, w) + w] == TableLines(data)[k]
  {
    var w := LineWidth(ColumnSizes(data));
    var lines := TableLines(data);
    var t := PrettyTable(data);
    PrettyTableLines(data);
    assert t == Join(lines + [""], '\n');
    JoinFixedWidth(lines, w, k);
    assert LineStart(k, w) + w <= |t|;
    assert t[LineStart(k, w)..LineStart(k, w) + w] == lines[k];
  }

  /** A cell found in a prefix of a line is found in the line. */
  lemma CellIsPrefix(line: string, n: nat, sizes: seq<nat>, j: nat, text: string)
    requires n <= |line| && j < |sizes|
    requires CellIs(line[..n], sizes, j, text)
    ensures CellIs(line, sizes, j, text)
  {
    var lo := Offset(sizes, j);
    var hi := lo + sizes[j] + 3;
    assert line[..n][lo..hi] == line[lo..hi];
  }

  /** The first two lines: the header with the keys of the first row, the separator. */
  lemma HeaderLines(data: seq<Row<string>>)
    requires |data| > 0 && Uniform(data)
    ensures Fits(Keys(data[0]), ColumnSizes(data))
    ensures TableLines(data)[0] == CellLine(Keys(data[0]), ColumnSizes(data))
    ensures TableLines(data)[1] == SeparatorLine(ColumnSizes(data))
  {
    ColumnSizesFit(data);
  }

  /** The line of row `i` shows that row's values. */
  lemma RowLine(data: seq<Row<string>>, i: nat)
    requires |data| > 0 && Uniform(data) && i < |data|
    ensures Fits(Values(data[i]), ColumnSizes(data))
    ensures TableLines(data)[i + 2] == CellLine(Values(data[i]), ColumnSizes(data))
  {
    ColumnSizesFit(data);
  }

  /** The table opens with the header: its cell `j` holds key `j` of the
      first row, so the header cells follow the key order. */
  lemma HeaderCell(data: seq<Row<string>>, j: nat)
    requires |data| > 0 && Uniform(data) && j < |data[0]|
    ensures CellIs(PrettyTable(data), ColumnSizes(data), j, Keys(data[0])[j])
  {
    var sizes := ColumnSizes(data);
    var keys := Keys(data[0]);
    var w := LineWidth(sizes);
    var t := PrettyTable(data);
    HeaderLines(data);
    CellAt(keys, sizes, j);
    assert w <= |t| && t[..w] == TableLines(data)[0] by {
      TableLineAt(data, 0);
      assert LineStart(0, w) == 0;
    }
    CellIsPrefix(t, w, sizes, j, keys[j]);
  }

  /** Cell `j` of the line of row `i` holds that row's `j`-th value. */
  lemma RowCell(data: seq<Row<string>>, i: nat, j: nat)
    requires |data| > 0 && Uniform(data) && i < |data| && j < |data[0]|
    ensures CellIs(TableLines(data)[i + 2], ColumnSizes(data), j, data[i][j].1)
  {
    var sizes := ColumnSizes(data);
    var values := Values(data[i]);
    RowLine(data, i);
    CellAt(values, sizes, j);
  }
}

=== FILE: text.dfy ===
/** Optional value: `None` for Python's `None` and for a raised error. */
module Wrappers {

  datatype Option<+T> = None | Some(value: T)
}

/** The handful of Python built-ins the script relies on: `str.strip()`,
    `str.split(sep)`, `sep.join(xs)`, `int(s)`, `str(n)`, and `s.index(x)`
    on a string or a list.
    Strings are sequences of Unicode code points, as in Python 3. */
module Text {
  import opened Wrappers

  // ---------------------------------------------------------------------------
  // Whitespace and str.strip()
  // ---------------------------------------------------------------------------

  /** Python's `str.isspace()` for one code point: the characters `strip()` removes. */
  predicate IsSpace(c: char) {
    var n := c as int;
    || n == 0x20
    || 0x09 <= n <= 0x0D
    || 0x1C <= n <= 0x1F
    || n == 0x85 || n == 0xA0 || n == 0x1680
    || 0x2000 <= n <= 0x200A
    || n == 0x2028 || n == 0x2029 || n == 0x202F || n == 0x205F || n == 0x3000
  }

  /** `s.lstrip()`: drops the leading whitespace, nothing else. */
  function StripLeft(s: string): (r: string)
    ensures |r| <= |s| && r == s[|s| - |r|..]
    ensures forall k :: 0 <= k < |s| - |r| ==> IsSpace(s[k])
    ensures r == [] || !IsSpace(r[0])
    decreases |s|
  {
    if |s| > 0 && IsSpace(s[0]) then StripLeft(s[1..]) else s
  }

  /** `s.rstrip()`: drops the trailing whitespace, nothing else. */
  function StripRight(s: string): (r: string)
    ensures |r| <= |s| && r == s[..|r|]
    ensures forall k :: |r| <= k < |s| ==> IsSpace(s[k])
    ensures r == [] || !IsSpace(r[|r| - 1])
    decreases |s|
  {
    if |s| > 0 && IsSpace(s[|s| - 1]) then StripRight(s[..|s| - 1]) else s
  }

  /** `s.strip()`: whitespace removed at both ends. */
  function Strip(s: string): (r: string)
    ensures r == [] || (!IsSpace(r[0]) && !IsSpace(r[|r| - 1]))
  {
    StripRight(StripLeft(s))
  }

  /** The strip of `s` is the slice of `s` between its leading and its
      trailing whitespace. */
  lemma StripSlice(s: string)
    ensures var i := |s| - |StripLeft(s)|;
            && i + |Strip(s)| <= |s|
            && Strip(s) == s[i..i + |Strip(s)|]
            && (forall k :: 0 <= k < i ==> IsSpace(s[k]))
            && (forall k :: i + |Strip(s)| <= k < |s| ==> IsSpace(s[k]))
  {
    var l := StripLeft(s);
    var r := StripRight(l);
    assert r == s[|s| - |l|..][..|r|];
  }

  /** A string that begins and ends with a non-space is its own strip. */
  lemma StripTrimmed(s: string)
    requires s == [] || (!IsSpace(s[0]) && !IsSpace(s[|s| - 1]))
    ensures Strip(s) == s
  {
  }

  /** Stripping twice is stripping once. */
  lemma StripIdempotent(s: string)
    ensures Strip(Strip(s)) == Strip(s)
  {
    StripTrimmed(Strip(s));
  }

  /** Stripping never introduces a character. */
  lemma StripKeeps(s: string, c: char)
    requires c !in s
    ensures c !in Strip(s)
  {
    var r := Strip(s);
    var i := |s| - |StripLeft(s)|;
    StripSlice(s);
    forall k | 0 <= k < |r|
      ensures r[k] != c
    {
      assert r[k] == s[i + k];
    }
  }

  // ---------------------------------------------------------------------------
  // Counting, repetition
  // ---------------------------------------------------------------------------

  /** Number of occurrences of `c` in `s` (`s.count(c)`). */
  function Count(s: string, c: char): nat
    decreases |s|
  {
    if |s| == 0 then 0 else (if s[0] == c then 1 else 0) + Count(s[1..], c)
  }

  lemma {:induction false} CountAppend(a: string, b: string, c: char)
    ensures Count(a + b, c) == Count(a, c) + Count(b, c)
    decreases |a|
  {
    if |a| == 0 {
      assert a + b == b;
    } else {
      assert (a + b)[1..] == a[1..] + b;
      CountAppend(a[1..], b, c);
    }
  }

  lemma {:induction false} CountAbsent(s: string, c: char)
    requires c !in s
    ensures Count(s, c) == 0
    decreases |s|
  {
    if |s| > 0 {
      assert c !in s[1..];
      CountAbsent(s[1..], c);
    }
  }

  /** `c * n` for a one-character string `c`. */
  function Repeat(c: char, n: nat): (r: string)
    ensures |r| == n
    ensures forall k :: 0 <= k < n ==> r[k] == c
  {
    seq(n, _ => c)
  }

  /** Position of the first occurrence of `x` in `s` (`s.index(x)`). */
  function FirstIndex<T(==)>(s: seq<T>, x: T): (i: nat)
    requires x in s
    ensures i < |s| && s[i] == x && x !in s[..i]
    decreases |s|
  {
    if s[0] == x then 0
    else
      var i := FirstIndex(s[1..], x) + 1;
      assert s[..i] == [s[0]] + s[1..][..i - 1];
      i
  }

  /** The first `x` in `a + [x] + b` is the one after `a` when `a` has none. */
  lemma FirstIndexAfter<T>(a: seq<T>, x: T, b: seq<T>)
    requires x !in a
    ensures FirstIndex(a + [x] + b, x) == |a|
  {
    var s := a + [x] + b;
    assert s[..|a|] == a;
    assert s[|a|] == x;
  }

  // ---------------------------------------------------------------------------
  // str.split(sep) and sep.join(xs)
  // ---------------------------------------------------------------------------

  /** `s.split(sep)` for a one-character separator: every maximal
      separator-free piece, empty pieces included; never an empty list. */
  function Split(s: string, sep: char): (r: seq<string>)
    ensures |r| >= 1
    ensures forall i :: 0 <= i < |r| ==> sep !in r[i]
    decreases |s|
  {
    if |s| == 0 then [""]
    else
      var rest := Split(s[1..], sep);
      if s[0] == sep then [""] + rest
      else [[s[0]] + rest[0]] + rest[1..]
  }

  /** `sep.join(xs)`: the pieces in order, one separator between each two. */
  function Join(xs: seq<string>, sep: char): (r: string)
    ensures |xs| >= 1 ==> xs[0] <= r
    decreases |xs|
  {
    if |xs| == 0 then ""
    else if |xs| == 1 then xs[0]
    else xs[0] + [sep] + Join(xs[1..], sep)
  }

  /** Joining separator-free pieces puts exactly one separator between each
      two of them. */
  lemma {:induction false} JoinCount(xs: seq<string>, sep: char)
    requires forall i :: 0 <= i < |xs| ==> sep !in xs[i]
    ensures Count(Join(xs, sep), sep) == if |xs| == 0 then 0 else |xs| - 1
    decreases |xs|
  {
    if |xs| == 1 {
      CountNone(xs[0], sep);
    } else if |xs| > 1 {
      assert forall i :: 1 <= i < |xs| ==> xs[1..][i - 1] == xs[i];
      JoinCount(xs[1..], sep);
      JoinStepCount(xs[0], Join(xs[1..], sep), sep);
    }
  }

  lemma CountNone(s: string, c: char)
    ensures c !in s ==> Count(s, c) == 0
  {
    if c !in s {
      CountAbsent(s, c);
    }
  }

  /** Counting separators across one join step. */
  lemma JoinStepCount(x: string, rest: string, sep: char)
    ensures Count(x + [sep] + rest, sep) == Count(x, sep) + 1 + Count(rest, sep)
    ensures sep !in x ==> Count(x, sep) == 0
  {
    CountAppend(x + [sep], rest, sep);
    CountAppend(x, [sep], sep);
    CountNone(x, sep);
  }

  lemma JoinCons(x: string, xs: seq<string>, sep: char)
    requires |xs| >= 1
    ensures Join([x] + xs, sep) == x + [sep] + Join(xs, sep)
  {
    assert ([x] + xs)[1..] == xs;
  }

  /** Splitting yields one piece more than there are separators. */
  lemma {:induction false} SplitCount(s: string, sep: char)
    ensures |Split(s, sep)| == Count(s, sep) + 1
    decreases |s|
  {
    if |s| > 0 {
      SplitCount(s[1..], sep);
    }
  }

  /** Joining the pieces of a split gives back the original string. */
  lemma {:induction false} JoinSplit(s: string, sep: char)
    ensures Join(Split(s, sep), sep) == s
    decreases |s|
  {
    if |s| > 0 {
      var rest := Split(s[1..], sep);
      JoinSplit(s[1..], sep);
      if s[0] == sep {
        assert ([""] + rest)[1..] == rest;
      } else {
        var r := [[s[0]] + rest[0]] + rest[1..];
        if |rest| == 1 {
          assert s == [s[0]] + s[1..];
        } else {
          assert r[1..] == rest[1..];
          assert Join(rest, sep) == rest[0] + [sep] + Join(rest[1..], sep);
          assert s == [s[0]] + s[1..];
        }
      }
    }
  }

  /** A separator-free string is a single piece, and a separator after it
      closes exactly that piece. */
  lemma {:induction false} SplitPiece(a: string, t: string, sep: char)
    requires sep !in a
    ensures Split(a, sep) == [a]
    ensures Split(a + [sep] + t, sep) == [a] + Split(t, sep)
    decreases |a|
  {
    if |a| == 0 {
      assert a + [sep] + t == [sep] + t;
      assert ([sep] + t)[1..] == t;
    } else {
      assert sep !in a[1..];
      SplitPiece(a[1..], t, sep);
      assert (a + [sep] + t)[1..] == a[1..] + [sep] + t;
      assert a == [a[0]] + a[1..];
    }
  }

  /** Splitting a join of separator-free pieces gives back the pieces. */
  lemma {:induction false} SplitJoin(xs: seq<string>, sep: char)
    requires |xs| >= 1
    requires forall i :: 0 <= i < |xs| ==> sep !in xs[i]
    ensures Split(Join(xs, sep), sep) == xs
    decreases |xs|
  {
    if |xs| == 1 {
      SplitPiece(xs[0], "", sep);
    } else {
      SplitJoin(xs[1..], sep);
      SplitPiece(xs[0], Join(xs[1..], sep), sep);
      assert xs == [xs[0]] + xs[1..];
    }
  }

  // ---------------------------------------------------------------------------
  // int(s) and str(n)
  // ---------------------------------------------------------------------------

  predicate IsDigit(c: char) {
    '0' <= c <= '9'
  }

  predicate AllDigits(s: string) {
    forall k :: 0 <= k < |s| ==> IsDigit(s[k])
  }

  /** The accepted spelling of `int(s)` on an already stripped token:
      an optional sign followed by at least one ASCII digit. */
  predicate IsIntLiteral(s: string) {
    if |s| > 0 && (s[0] == '+' || s[0] == '-') then |s| > 1 && AllDigits(s[1..])
    else |s| > 0 && AllDigits(s)
  }

  /** Decimal value of a digit string, most significant digit first. */
  function DigitsValue(s: string): nat
    requires AllDigits(s)
    decreases |s|
  {
    if |s| == 0 then 0
    else DigitsValue(s[..|s| - 1]) * 10 + ((s[|s| - 1] as int) - ('0' as int))
  }

  /** `int(s)`: `None` where Python raises `ValueError`. */
  function ParseInt(s: string): (r: Option<int>)
    ensures r.Some? <==> IsIntLiteral(s)
    ensures r.Some? && s[0] == '-' ==> r.value == -(DigitsValue(s[1..]) as int)
    ensures r.Some? && s[0] != '-' ==> r.value == DigitsValue(if s[0] == '+' then s[1..] else s) as int
  {
    if |s| > 0 && (s[0] == '+' || s[0] == '-') then
      if |s| > 1 && AllDigits(s[1..]) then
        Some(if s[0] == '-' then -(DigitsValue(s[1..]) as int) else DigitsValue(s[1..]))
      else None
    else if |s| > 0 && AllDigits(s) then Some(DigitsValue(s))
    else None
  }

  /** `str(n)` for a natural number. */
  function ShowNat(n: nat): (r: string)
    ensures |r| >= 1 && AllDigits(r)
    decreases n
  {
    var d := [(('0' as int) + n % 10) as char];
    if n < 10 then d else ShowNat(n / 10) + d
  }

  /** `str(n)` for an integer. */
  function ShowInt(n: int): (r: string)
    ensures |r| >= 1
  {
    if n < 0 then "-" + ShowNat(-n) else ShowNat(n)
  }

  lemma {:induction false} ShowNatValue(n: nat)
    ensures DigitsValue(ShowNat(n)) == n
    decreases n
  {
    var d := [(('0' as int) + n % 10) as char];
    if n >= 10 {
      ShowNatValue(n / 10);
      var s := ShowNat(n / 10) + d;
      assert s[..|s| - 1] == ShowNat(n / 10);
    }
  }

  /** `int(str(n)) == n`: the decimal rendering parses back to the number. */
  lemma ParseShowInt(n: int)
    ensures ParseInt(ShowInt(n)) == Some(n)
  {
    if n < 0 {
      ShowNatValue(-n);
      assert ShowInt(n)[1..] == ShowNat(-n);
    } else {
      ShowNatValue(n);
    }
  }

  /** A decimal rendering never holds a comma, a closing parenthesis or whitespace. */
  lemma ShowIntPlain(n: int)
    ensures ',' !in ShowInt(n) && ')' !in ShowInt(n)
    ensures forall k :: 0 <= k < |ShowInt(n)| ==> !IsSpace(ShowInt(n)[k])
  {
    var s := ShowInt(n);
    assert forall k :: 0 <= k < |s| ==> s[k] == '-' || IsDigit(s[k]);
  }

  /** Every token `int()` accepts is non-empty and free of commas,
      parentheses and whitespace. */
  lemma IntLiteralPlain(s: string)
    requires IsIntLiteral(s)
    ensures |s| > 0 && ',' !in s && ')' !in s
    ensures forall k :: 0 <= k < |s| ==> !IsSpace(s[k])
  {
    assert forall k :: 0 <= k < |s| ==> s[k] == '+' || s[k] == '-' || IsDigit(s[k]) by {
      forall k | 0 <= k < |s|
        ensures s[k] == '+' || s[k] == '-' || IsDigit(s[k])
      {
        if k > 0 && (s[0] == '+' || s[0] == '-') {
          assert s[k] == s[1..][k - 1];
        }
      }
    }
  }
}

=== FILE: whitelist.dfy ===
/** The whitelist workflow: one pass of `input_validation` over the user's
    comma-separated choice, and the list updates of `add_whitelist`
    (`whitelist += choice`) and `remove_whitelist` (`whitelist.remove(x)`
    for each chosen token). The whitelist is the JSON list of the tokens the
    user typed, so its entries are strings. */
module Whitelist {
  import opened Wrappers
  import opened Text
  import opened Queries

  /** A row of `query_tvshows`: the show id and its title. */
  datatype Show = Show(id: int, title: string)

  /** What one pass of `input_validation` decides: the script quits, asks
      again, or returns the stripped tokens. */
  datatype Pass = Quit | Invalid | Valid(tokens: seq<string>)

  // ---------------------------------------------------------------------------
  // input_validation
  // ---------------------------------------------------------------------------

  /** `[x.strip() for x in choice.split(',')]`. */
  function Tokens(choice: string): (ts: seq<string>)
    ensures |ts| == Count(choice, ',') + 1
  {
    var pieces := Split(choice, ',');
    SplitCount(choice, ',');
    seq(|pieces|, i requires 0 <= i < |pieces| => Strip(pieces[i]))
  }

  /** Every token is stripped and free of commas. */
  lemma TokensShape(choice: string)
    ensures forall i :: 0 <= i < |Tokens(choice)| ==>
              ',' !in Tokens(choice)[i] && Strip(Tokens(choice)[i]) == Tokens(choice)[i]
  {
    var pieces := Split(choice, ',');
    var ts := Tokens(choice);
    forall i | 0 <= i < |ts|
      ensures ',' !in ts[i] && Strip(ts[i]) == ts[i]
    {
      assert ts[i] == Strip(pieces[i]);
      StripKeeps(pieces[i], ',');
      StripIdempotent(pieces[i]);
    }
  }

  /** Joining stripped, comma-free tokens with commas and reading them back
      gives the same tokens. */
  lemma TokensJoin(ts: seq<string>)
    requires |ts| >= 1
    requires forall i :: 0 <= i < |ts| ==> ',' !in ts[i] && Strip(ts[i]) == ts[i]
    ensures Tokens(Join(ts, ',')) == ts
  {
    SplitJoin(ts, ',');
  }

  /** The ids of the listed shows, `[k['id'] for k in validLst]`. */
  function ShowIds(shows: seq<Show>): (ids: seq<int>)
    ensures |ids| == |shows|
    ensures forall k :: 0 <= k < |shows| ==> ids[k] == shows[k].id
  {
    seq(|shows|, k requires 0 <= k < |shows| => shows[k].id)
  }

  /** A token passes when `int()` accepts it and the number is a listed id. */
  predicate Accepted(token: string, shows: seq<Show>) {
    ParseInt(token).Some? && ParseInt(token).value in ShowIds(shows)
  }

  /** The `for x in choice` loop: false at the first token that fails. */
  function AllAccepted(tokens: seq<string>, shows: seq<Show>): (ok: bool)
    ensures ok <==> forall i :: 0 <= i < |tokens| ==> Accepted(tokens[i], shows)
    decreases |tokens|
  {
    if |tokens| == 0 then true
    else if !Accepted(tokens[0], shows) then false
    else
      var ok := AllAccepted(tokens[1..], shows);
      assert forall i :: 1 <= i < |tokens| ==> tokens[1..][i - 1] == tokens[i];
      ok
  }

  /** One pass of `input_validation(choice, validLst)`. */
  function ValidationPass(choice: string, shows: seq<Show>): (p: Pass)
    ensures p.Quit? <==> Tokens(choice)[0] == "q"
    ensures p.Valid? <==> Tokens(choice)[0] != "q" &&
                          forall i :: 0 <= i < |Tokens(choice)| ==> Accepted(Tokens(choice)[i], shows)
    ensures p.Valid? ==> p.tokens == Tokens(choice)
  {
    var ts := Tokens(choice);
    if ts[0] == "q" then Quit
    else if AllAccepted(ts, shows) then Valid(ts)
    else Invalid
  }

  /** Accepted tokens are integer literals, hence usable as ids in an `IN` list. */
  lemma ValidTokensAreIds(choice: string, shows: seq<Show>)
    requires ValidationPass(choice, shows).Valid?
    ensures |ValidationPass(choice, shows).tokens| >= 1
    ensures AllIdText(ValidationPass(choice, shows).tokens)
  {
    var ts := Tokens(choice);
    forall i | 0 <= i < |ts|
      ensures IsIdText(ts[i])
    {
      assert Accepted(ts[i], shows);
      IntLiteralPlain(ts[i]);
    }
  }

  /** `str(n)` for each id. */
  function ShowInts(ids: seq<int>): (ts: seq<string>)
    ensures |ts| == |ids|
    ensures forall i :: 0 <= i < |ids| ==> ts[i] == ShowInt(ids[i])
  {
    seq(|ids|, i requires 0 <= i < |ids| => ShowInt(ids[i]))
  }

  lemma ShowIntAccepted(n: int, shows: seq<Show>)
    requires n in ShowIds(shows)
    ensures Accepted(ShowInt(n), shows)
  {
    ParseShowInt(n);
  }

  lemma ShowIntStripped(n: int)
    ensures ',' !in ShowInt(n) && Strip(ShowInt(n)) == ShowInt(n)
  {
    ShowIntPlain(n);
    StripTrimmed(ShowInt(n));
  }

  lemma ShowIntNotQuit(n: int)
    ensures ShowInt(n) != "q"
  {
    ParseShowInt(n);
    assert !IsIntLiteral("q");
  }

  /** The rendering of a listed id is a token that passes. */
  lemma ShowIntToken(n: int, shows: seq<Show>)
    requires n in ShowIds(shows)
    ensures ',' !in ShowInt(n) && Strip(ShowInt(n)) == ShowInt(n)
    ensures Accepted(ShowInt(n), shows) && ShowInt(n) != "q"
  {
    ShowIntAccepted(n, shows);
    ShowIntStripped(n);
    ShowIntNotQuit(n);
  }

  /** Typing the ids of listed shows, comma-separated, is accepted as is. */
  lemma TypedIdsValid(ids: seq<int>, shows: seq<Show>)
    requires |ids| >= 1
    requires forall i :: 0 <= i < |ids| ==> ids[i] in ShowIds(shows)
    ensures ValidationPass(Join(ShowInts(ids), ','), shows) == Valid(ShowInts(ids))
  {
    var ts := ShowInts(ids);
    forall i | 0 <= i < |ts|
      ensures ',' !in ts[i] && Strip(ts[i]) == ts[i] && Accepted(ts[i], shows) && ts[i] != "q"
    {
      ShowIntToken(ids[i], shows);
    }
    assert Tokens(Join(ts, ',')) == ts by {
      TokensJoin(ts);
    }
  }

  // ---------------------------------------------------------------------------
  // Updating the list
  // ---------------------------------------------------------------------------

  /** `whitelist.remove(x)` when `x` is present: drops its first occurrence. */
  function RemoveFirst(whitelist: seq<string>, x: string): (r: seq<string>)
    requires x in whitelist
    ensures |r| == |whitelist| - 1
    ensures var i := FirstIndex(whitelist, x);
            whitelist == r[..i] + [x] + r[i..] && x !in r[..i]
    ensures multiset(r) == multiset(whitelist) - multiset{x}
  {
    var i := FirstIndex(whitelist, x);
    var r := whitelist[..i] + whitelist[i + 1..];
    assert whitelist == whitelist[..i] + [x] + whitelist[i + 1..];
    assert r[..i] == whitelist[..i] && r[i..] == whitelist[i + 1..];
    r
  }

  /** Entry `k` of `r` is entry `f[k]` of `w`, and `f` is increasing. */
  predicate Embeds(f: seq<nat>, r: seq<string>, w: seq<string>) {
    && |f| == |r|
    && (forall k :: 0 <= k < |f| ==> f[k] < |w| && r[k] == w[f[k]])
    && (forall k, l :: 0 <= k < l < |f| ==> f[k] < f[l])
  }

  /** `r` is `w` with some entries deleted and the others in their order. */
  ghost predicate IsSubseq(r: seq<string>, w: seq<string>) {
    exists f :: Embeds(f, r, w)
  }

  lemma SubseqSelf(w: seq<string>)
    ensures IsSubseq(w, w)
  {
    var f: seq<nat> := seq(|w|, k requires 0 <= k < |w| => k);
    assert Embeds(f, w, w);
  }

  lemma SubseqTrans(a: seq<string>, b: seq<string>, c: seq<string>)
    requires IsSubseq(a, b) && IsSubseq(b, c)
    ensures IsSubseq(a, c)
  {
    var f :| Embeds(f, a, b);
    var g :| Embeds(g, b, c);
    var h: seq<nat> := seq(|a|, k requires 0 <= k < |a| => g[f[k]]);
    assert Embeds(h, a, c);
  }

  /** Deleting one entry keeps the others in their order. */
  lemma DeleteOneSubseq(a: seq<string>, x: string, b: seq<string>)
    ensures IsSubseq(a + b, a + [x] + b)
  {
    var r := a + b;
    var w := a + [x] + b;
    var f: seq<nat> := seq(|r|, k requires 0 <= k < |r| => if k < |a| then k else k + 1);
    forall k | 0 <= k < |r|
      ensures f[k] < |w| && r[k] == w[f[k]]
    {
      if k >= |a| {
        assert r[k] == b[k - |a|] == w[k + 1];
      }
    }
    assert Embeds(f, r, w);
  }

  /** `list.remove` keeps the other entries in their order. */
  lemma RemoveFirstSubseq(whitelist: seq<string>, x: string)
    requires x in whitelist
    ensures IsSubseq(RemoveFirst(whitelist, x), whitelist)
  {
    var r := RemoveFirst(whitelist, x);
    var i := FirstIndex(whitelist, x);
    assert r == r[..i] + r[i..];
    DeleteOneSubseq(r[..i], x, r[i..]);
  }

  /** `for x in choice: whitelist.remove(x)`; `None` where `remove` raises
      `ValueError` because `x` is no longer in the list. */
  function RemoveAll(whitelist: seq<string>, choice: seq<string>): (r: Option<seq<string>>)
    ensures r.Some? <==> multiset(choice) <= multiset(whitelist)
    ensures r.Some? ==> multiset(r.value) == multiset(whitelist) - multiset(choice)
    ensures r.Some? ==> |r.value| == |whitelist| - |choice|
    ensures r.Some? ==> IsSubseq(r.value, whitelist)
    decreases |choice|
  {
    if |choice| == 0 then
      SubseqSelf(whitelist);
      Some(whitelist)
    else if choice[0] !in whitelist then
      assert multiset(choice)[choice[0]] > 0;
      None
    else
      var w := RemoveFirst(whitelist, choice[0]);
      var r := RemoveAll(w, choice[1..]);
      RemoveStep(whitelist, choice);
      RemoveFirstSubseq(whitelist, choice[0]);
      if r.Some? then
        SubseqTrans(r.value, w, whitelist);
        r
      else r
  }

  /** Removing the first chosen token leaves the rest to remove from what remains. */
  lemma RemoveStep(whitelist: seq<string>, choice: seq<string>)
    requires |choice| > 0 && choice[0] in whitelist
    ensures multiset(choice) <= multiset(whitelist) <==>
            multiset(choice[1..]) <= multiset(whitelist) - multiset{choice[0]}
    ensures multiset(whitelist) - multiset{choice[0]} - multiset(choice[1..])
            == multiset(whitelist) - multiset(choice)
  {
    assert choice == [choice[0]] + choice[1..];
    assert multiset(choice) == multiset{choice[0]} + multiset(choice[1..]);
  }

  /** Errors the update flows can raise. */
  datatype Error = ValueError | TypeError

  /** How one round of `add_whitelist` or `remove_whitelist` ends: the user
      quit, the input was rejected (the script asks again), an exception
      escaped, or the new list was saved. */
  datatype Edit = Stopped | Reprompted | Raised(error: Error) | Saved(whitelist: seq<string>)

  /** `add_whitelist` for one typed choice, given the listed shows (those not
      yet whitelisted). */
  function AddOnce(whitelist: seq<string>, shows: seq<Show>, choice: string): (e: Edit)
    ensures e.Stopped? <==> ValidationPass(choice, shows).Quit?
    ensures e.Reprompted? <==> ValidationPass(choice, shows).Invalid?
    ensures !e.Raised?
    ensures e.Saved? ==> e.whitelist == whitelist + Tokens(choice)
  {
    match ValidationPass(choice, shows)
    case Quit => Stopped
    case Invalid => Reprompted
    case Valid(ts) => Saved(whitelist + ts)
  }

  /** `remove_whitelist` for one typed choice. With an empty whitelist the
      show listing is `None`: the id lookup raises `TypeError` when the first
      token is one `int()` accepts, and a first token it rejects re-prompts
      before any lookup. */
  function RemoveOnce(whitelist: seq<string>, shows: seq<Show>, choice: string): (e: Edit)
    ensures e.Stopped? <==> Tokens(choice)[0] == "q"
    ensures e == Raised(TypeError) <==>
              whitelist == [] && Tokens(choice)[0] != "q" && ParseInt(Tokens(choice)[0]).Some?
    ensures e.Saved? <==> whitelist != [] && ValidationPass(choice, shows).Valid? &&
                          multiset(Tokens(choice)) <= multiset(whitelist)
    ensures e.Saved? ==> ValidationPass(choice, shows) == Valid(Tokens(choice))
    ensures e.Saved? ==> RemoveAll(whitelist, Tokens(choice)) == Some(e.whitelist)
    ensures e.Saved? ==> multiset(e.whitelist) == multiset(whitelist) - multiset(Tokens(choice))
    ensures e == Raised(ValueError) <==>
              whitelist != [] && ValidationPass(choice, shows).Valid? &&
              !(multiset(Tokens(choice)) <= multiset(whitelist))
  {
    var ts := Tokens(choice);
    if whitelist == [] then
      if ts[0] == "q" then Stopped
      else if ParseInt(ts[0]).None? then Reprompted
      else Raised(TypeError)
    else
      match ValidationPass(choice, shows)
      case Quit => Stopped
      case Invalid => Reprompted
      case Valid(ts) =>
        match RemoveAll(whitelist, ts)
        case None => Raised(ValueError)
        case Some(w) => Saved(w)
  }

  // ---------------------------------------------------------------------------
  // Properties of the workflow
  // ---------------------------------------------------------------------------

  /** Removing what was just added restores the list's contents. */
  lemma RemoveAfterAdd(whitelist: seq<string>, choice: seq<string>)
    ensures RemoveAll(whitelist + choice, choice).Some?
    ensures multiset(RemoveAll(whitelist + choice, choice).value) == multiset(whitelist)
  {
    assert multiset(whitelist + choice) == multiset(whitelist) + multiset(choice);
  }

  /** When none of the added ids was whitelisted before, removing them
      restores the list exactly. */
  lemma {:induction false} RemoveAfterAddExact(whitelist: seq<string>, choice: seq<string>)
    requires forall i :: 0 <= i < |choice| ==> choice[i] !in whitelist
    ensures RemoveAll(whitelist + choice, choice) == Some(whitelist)
    decreases |choice|
  {
    if |choice| > 0 {
      var x := choice[0];
      var rest := choice[1..];
      var w := whitelist + choice;
      assert RemoveFirst(w, x) == whitelist + rest by {
        assert w == whitelist + [x] + rest;
        FirstIndexAfter(whitelist, x, rest);
        assert w[..|whitelist|] == whitelist && w[|whitelist| + 1..] == rest;
      }
      assert forall i :: 0 <= i < |rest| ==> rest[i] == choice[i + 1];
      RemoveAfterAddExact(whitelist, rest);
    } else {
      assert whitelist + choice == whitelist;
    }
  }

  /** Every entry a saved list holds is an id usable in an `IN` list, so the
      `query_to_del` statement built from it reads back as the whitelist. */
  lemma AddKeepsIds(whitelist: seq<string>, shows: seq<Show>, choice: string)
    requires AllIdText(whitelist)
    requires AddOnce(whitelist, shows, choice).Saved?
    ensures AllIdText(AddOnce(whitelist, shows, choice).whitelist)
  {
    ValidTokensAreIds(choice, shows);
    var w := AddOnce(whitelist, shows, choice).whitelist;
    assert w == whitelist + Tokens(choice);
  }

  /** Removing keeps only entries that were already in the list. */
  lemma RemoveKeepsIds(whitelist: seq<string>, shows: seq<Show>, choice: string)
    requires AllIdText(whitelist)
    requires RemoveOnce(whitelist, shows, choice).Saved?
    ensures AllIdText(RemoveOnce(whitelist, shows, choice).whitelist)
  {
    var w := RemoveOnce(whitelist, shows, choice).whitelist;
    forall i | 0 <= i < |w|
      ensures IsIdText(w[i])
    {
      assert w[i] in multiset(w);
      assert w[i] in multiset(whitelist);
    }
  }

  /** Adding shows 1 and 2 to an empty whitelist saves `["1", "2"]`. */
  lemma AddExample()
    ensures AddOnce([], [Show(1, "A"), Show(2, "B")], "1,2") == Saved(["1", "2"])
  {
    var shows := [Show(1, "A"), Show(2, "B")];
    assert ValidationPass("1,2", shows) == Valid(["1", "2"]) by {
      assert ShowIds(shows) == [1, 2];
      assert ShowInts([1, 2]) == ["1", "2"];
      assert Join(["1", "2"], ',') == "1,2";
      TypedIdsValid([1, 2], shows);
    }
  }

  lemma ValidateOne()
    ensures ValidationPass("1", [Show(1, "A"), Show(2, "B")]) == Valid(["1"])
  {
    var shows := [Show(1, "A"), Show(2, "B")];
    assert ShowIds(shows) == [1, 2];
    assert ShowInts([1]) == ["1"];
    assert Join(["1"], ',') == "1";
    TypedIdsValid([1], shows);
  }

  lemma RemoveOneOfTwo()
    ensures RemoveAll(["1", "2"], ["1"]) == Some(["2"])
  {
    assert FirstIndex(["1", "2"], "1") == 0;
    assert RemoveFirst(["1", "2"], "1") == ["2"];
    assert RemoveAll(["2"], []) == Some(["2"]);
  }

  /** Removing show 1 from `["1", "2"]` saves `["2"]`. */
  lemma RemoveExample()
    ensures RemoveOnce(["1", "2"], [Show(1, "A"), Show(2, "B")], "1") == Saved(["2"])
  {
    ValidateOne();
    RemoveOneOfTwo();
  }

  lemma ValidateLeadingZero()
    ensures ValidationPass("01", [Show(1, "A")]) == Valid(["01"])
  {
    SplitPiece("01", "", ',');
    assert Strip("01") == "01" by {
      StripTrimmed("01");
    }
    assert Tokens("01") == ["01"];
    assert ParseInt("01") == Some(1) by {
      assert "01"[..1] == "0" && "0"[..0] == "";
      assert DigitsValue("0") == 0;
      assert DigitsValue("01") == 1;
    }
    assert ShowIds([Show(1, "A")]) == [1];
  }

  /** `int()` accepts `"01"` as show 1, but the whitelist holds `"1"`, so
      `whitelist.remove("01")` raises `ValueError`. */
  lemma LeadingZeroRaises()
    ensures RemoveOnce(["1"], [Show(1, "A")], "01") == Raised(ValueError)
  {
    ValidateLeadingZero();
    assert "01" !in ["1"];
  }

  lemma ValidateTwice()
    ensures ValidationPass("1,1", [Show(1, "A")]) == Valid(["1", "1"])
  {
    var shows := [Show(1, "A")];
    assert ShowIds(shows) == [1];
    assert ShowInts([1, 1]) == ["1", "1"];
    assert Join(["1", "1"], ',') == "1,1";
    TypedIdsValid([1, 1], shows);
  }

  /** Naming the same show twice passes validation, but the second
      `whitelist.remove("1")` raises `ValueError`. */
  lemma RepeatedTokenRaises()
    ensures RemoveOnce(["1"], [Show(1, "A")], "1,1") == Raised(ValueError)
  {
    ValidateTwice();
    assert multiset(["1", "1"])["1"] == 2;
    assert multiset(["1"])["1"] == 1;
  }
}
